=== FILE: README.md ===
# Department active record, modelled in Dafny

This project models `lib/department.py`. That file is the `Department` class of a small
Python ORM exercise. Each department has an `id`, a `name` and a `location`. It is
persisted in a SQLite table `departments`, and it is cached in the class-level identity
map `Department.all`, which maps row ids to live instances.

The model is a pure state machine. A `Store` holds four things:

- the table, which is `None` while it does not exist;
- the identity map `all`, from row id to handle;
- a heap of objects, from handle to attributes;
- the next free handle.

Handles stand for Python object identity, so "the same instance" is an equality that can
be proved. Every operation returns a `Step`, which is the new store together with a
`Result`. The store is returned on failure too, because a Python exception does not undo
the assignments made before it.

| file | module | what it holds |
|---|---|---|
| `wrappers.dfy` | `Wrappers` | `Option`, `Result` |
| `pytext.dfy` | `PyText` | Python's `str.isspace` character set, `lstrip`/`rstrip`/`strip`, and the link between "strips to nothing" and "whitespace only" |
| `department.dfy` | `Departments` | the entity, the store, the invariants, the two validating setters, the getters, the constructor |
| `persistence.dfy` | `Persistence` | `create_table`, `drop_table`, `save`, `create`, `update`, `delete` |
| `readpath.dfy` | `ReadPath` | `instance_from_db`, `find_by_id`, `find_by_name`, `get_all` |
| `properties.dfy` | `Properties` | properties relating several operations: reads reflect the table, writes are seen by later reads, one instance per row id, the double-save quirk |

Three invariants are stated over the store:

- `WellFormed`: identity-map handles are live objects.
- `Valid`: every object and every row holds two non-blank strings.
- `Coherent`: the entry `all[k]` names an object whose `id` is `k`.

Every operation states that it keeps `WellFormed` and `Valid`. Every operation except
`save` of an object that is already registered in `all` also keeps `Coherent`.

Two things the storage decides are parameters of the model:

- The row id SQLite assigns on `INSERT` (`lastrowid`) is the parameter `rowId`. It may be
  any id the table does not already use (`Fresh`).
- The order in which a `SELECT` without `ORDER BY` returns rows is the parameter `scan`.
  It may be any duplicate-free listing of the table's keys (`ScanOrder`). `get_all` returns
  rows in that order, and `find_by_name` takes the first matching row in it.

## Model

| member | source | states |
|---|---|---|
| PyText.HasTextIffNotAllSpace | lib/department.py:25 | "has a non-whitespace character" is exactly the negation of "whitespace only", proved by induction on the string |
| PyText.LStrip | lib/department.py:25 | `lstrip()` returns a suffix of the input; everything it removes is whitespace; the result does not start with whitespace |
| PyText.RStrip | lib/department.py:25 | `rstrip()` returns a prefix of the input; everything it removes is whitespace; the result does not end with whitespace |
| PyText.StripTrimsBothEnds | lib/department.py:25 | `strip()` keeps a contiguous middle part of the string, everything it drops on either side is whitespace, and what it keeps neither starts nor ends with whitespace |
| PyText.StripEmptyIffAllSpace | lib/department.py:25 | `len(value.strip()) == 0` holds exactly when every character of `value` is Python whitespace |
| PyText.StripEmptyIffNoText | lib/department.py:38 | the emptiness test both setters use holds exactly when the string has no non-whitespace character |
| Departments.CheckText | lib/department.py:21-27 | a non-`str` is refused with the type error; a string that strips to nothing is refused with the emptiness error, checked only after the type; anything else is accepted and kept untrimmed |
| Departments.SetName | lib/department.py:21-27 | the `name` setter succeeds exactly for acceptable values; a refusal leaves the store unchanged with the matching error; success changes only this object's `name`, to the exact value |
| Departments.SetLocation | lib/department.py:34-40 | the same rule and frame for `location` |
| Departments.AssignThenRead | lib/department.py:17-40 | assigning an accepted string through a setter and reading it back through the getter returns that same string |
| Departments.BlankAndPaddedNames | lib/department.py:22-27 | `" \t\n"` and `""` are refused as empty and a non-string is refused as the wrong type, while `" HR "` is stored with its spaces |
| Departments.NameOf | lib/department.py:17-19 | the `name` getter; in a valid store it never returns a blank string |
| Departments.LocationOf | lib/department.py:30-32 | the `location` getter; in a valid store it never returns a blank string |
| Departments.New | lib/department.py:8-11 | the constructor stores `id` as given and validates `name` before `location`; it succeeds exactly when both are acceptable; a refusal changes nothing; success adds one new object and leaves the table and `all` alone |
| Departments.CoherentMapIsInjective | lib/department.py:6 | in a coherent identity map, two ids never name the same object |
| Persistence.CreateTable | lib/department.py:42-53 | `CREATE TABLE IF NOT EXISTS` makes an empty table only when none exists and keeps an existing one; the identity map and objects are untouched |
| Persistence.DropTable | lib/department.py:55-60 | `DROP TABLE IF EXISTS` removes the table; the identity map keeps every entry |
| Persistence.Save | lib/department.py:62-68 | with the table missing nothing changes and the storage error is raised. Otherwise exactly one row holding the current fields is added under the assigned id, the object's `id` becomes that id, only `all[id]` is (re)bound, and coherence is kept when the object was not registered before |
| Persistence.SaveNew | lib/department.py:73-74 | a just-constructed object is unregistered, and saving it binds it under the row id in the heap and in `all` |
| Persistence.Create | lib/department.py:70-75 | `create` succeeds exactly when both values are acceptable and the table exists. A refused value raises before anything is stored. A missing table raises with the object never registered. Success gives exact heap, `all` and table contents |
| Persistence.Update | lib/department.py:77-81 | the only row rewritten is the one keyed by the object's `id`, with its current fields; a `None` or absent id changes nothing and raises nothing; `all` and the objects are never touched |
| Persistence.Delete | lib/department.py:83-89 | the row and the `all` entry keyed by `id` are removed, whichever object that entry names; the object's `id` becomes `None`; every other row, entry and object is kept |
| ReadPath.Refresh | lib/department.py:94-97 | cache hit: the cached object itself has `name`, then `location`, reassigned from the row; a refused `location` raises after `name` was overwritten |
| ReadPath.Register | lib/department.py:98-100 | cache miss: a new object with the row's id and fields is constructed and registered under the row id; a refused field leaves the store unchanged |
| ReadPath.InstanceFromDb | lib/department.py:91-101 | succeeds exactly when both row fields are acceptable; the result is the object `all` holds for the row id afterwards, carrying the row's fields; a hit returns the cached handle, a miss a new one; no other entry or registered object changes |
| ReadPath.InstanceFromDbFrame | lib/department.py:91-101 | no object changes except the one the identity map held for the row id before the call, whether or not the store is coherent |
| ReadPath.FindById | lib/department.py:110-115 | `None` exactly when no row has the id, which is always so for a `None` id. Otherwise the result is the instance `all` holds for that id, with that row's fields, and it is the cached instance when one existed. Every other `all` entry is kept, no object disappears, and no object changes except the one cached under `id` before the call |
| ReadPath.FirstNamed | lib/department.py:120-121 | the position in scan order of the first row with the name, or none exactly when no row has it |
| ReadPath.FindByName | lib/department.py:117-122 | `None` exactly when no row has that exact name; otherwise the registered instance for some row with that name, with that row's location, and the very instance that was cached for that row when one was. Every existing `all` entry is kept and no object disappears. No object other than the returned one changes, and no object outside the identity map changes at all |
| ReadPath.FromRows | lib/department.py:107-108 | `instance_from_db` over rows in scan order. On success there is one handle per row, each the `all` entry for its row id. Every `all` entry is kept, and in a coherent store the objects of ids not among the rows are unchanged |
| ReadPath.FirstRefusalIsFirstRefusedRow | lib/department.py:94-99 | the reference definition of the error raised over a list of rows: none exactly when every row holds two non-blank strings, otherwise the setter error of a refused row that every earlier row precedes accepted |
| ReadPath.FromRowsStopsAtFirstRefusal | lib/department.py:107-108 | reconstructing rows in scan order fails exactly when some row is refused, and raises the error of the first refused row, its `name` checked before its `location` |
| ReadPath.GetAll | lib/department.py:103-108 | one handle per row in scan order, each the instance `all` holds for that row id; succeeds whenever the store is valid; a missing table raises; every `all` entry is kept, and in a coherent store the objects of ids with no row are unchanged |
| Properties.FromRowsReflectTable | lib/department.py:94-101 | from a coherent store, every object reconstructed from distinct rows equals its row: same id, name and location |
| Properties.GetAllReflectsTable | lib/department.py:103-108 | from a valid, coherent store, `get_all` returns, for each row, an object equal to that row, and never the same object twice |
| Properties.FindByIdTwice | lib/department.py:94-101 | two successive `find_by_id` calls for one id return the same instance |
| Properties.GetAllThenFindById | lib/department.py:103-115 | each object `get_all` returns is the instance a later `find_by_id` of its row id returns |
| Properties.CreateThenFindById | lib/department.py:70-75 | round trip: `create` then `find_by_id` of the new id returns the created instance with the given name and location |
| Properties.UpdateThenFindById | lib/department.py:77-81 | setting `name`, then `update`, then `find_by_id` of the object's id returns an object with the new name |
| Properties.DeleteThenFindById | lib/department.py:83-89 | after `delete`, the object is transient, its old id is not in `all`, and `find_by_id` of it returns `None` |
| Properties.SaveTwiceLeavesStaleEntry | lib/department.py:62-68 | saving a persisted object again inserts a second row, and both ids name the object in `all` while it carries only the second: the identity map is no longer coherent |
| Properties.ListSingleRow | lib/department.py:103-108 | a table whose only row is cached lists exactly that cached instance |
| Properties.FreshTable | lib/department.py:42-53 | a fresh process after `create_table` has an empty table and an empty identity map and is valid and coherent, so `FirstCreate` applies to it |
| Properties.FirstCreate | lib/department.py:70-75 | the first `create` into an empty table makes the only row and the only `all` entry, and `get_all` then lists exactly that instance |
| Properties.DropThenCreate | lib/department.py:42-60 | after `drop_table` and `create_table` the table is empty and `get_all` lists nothing, for any scan order, while `all` keeps every entry |

## Left out

- `employees()` (lib/department.py:124-129): it reads another class's table, and that class is not part of this model.
- `__repr__` (lib/department.py:13-14): string formatting only.
- Exception messages: both setter errors are a `ValueError` in Python. The model tells them apart as `InvalidType` and `EmptyValue` and drops the message text.
- Storage errors other than a missing table. These include locking, I/O and constraint failures. The missing table is the `NoSuchTable` error, raised before any change.
- Connection handling and `commit`: each statement is applied to the abstract table at once.
- Argument types: `find_by_id` is modelled for an `int` or `None` id and `find_by_name` for a `str` name. Through SQLite type affinity, `find_by_id("1")` or `find_by_id(True)` would find row 1, and `find_by_name(123)` would find a row named `"123"` (lib/department.py:113-114, 120-121). These coercions are not modelled.
- The constructor's `id` (lib/department.py:9) accepts any Python value. The model restricts it to an optional `int`.
- Column types: a row holds two strings. A NULL or non-text `name` or `location` column would make the read path raise the setters' type error (lib/department.py:96-99). The model's rows cannot represent such a column.
- ReadPath.FindById: 64-bit rowids are not modelled. `find_by_id(2**63)` would raise `OverflowError` when sqlite3 binds the parameter, while the model returns `None`.
- Persistence.Save: the row id SQLite assigns is any id not in use. SQLite's own policy (the largest id plus one, from 1) is not modelled, so ids of 0 or below are allowed.
- Python strings that hold lone surrogates: a Dafny `char` cannot represent them.
- Truthiness of `if department:` (lib/department.py:95): a `Department` defines neither `__bool__` nor `__len__`, so every cached object is truthy. The test is therefore modelled as membership in `all`.

=== FILE: department.dfy ===
/**
 The `Department` entity and the state it lives in.

 Python objects become handles into a heap, so that "the same instance" is a
 provable equality of handles. The class-level dictionary `Department.all` is
 the identity map `all`, from row id to handle, and the `departments` table is
 a finite map from row id to its `(name, location)` pair, absent when the table
 has not been created or has been dropped.
 */
module Departments {
  import opened Wrappers
  import opened PyText

  /** What a caller may assign to `name` or `location`: a `str`, or any other Python object. */
  datatype Value = Str(s: string) | NotStr

  /** The attribute a validation error is about. */
  datatype Field = NameField | LocationField

  /**
   The failures an operation can raise: the two validation errors of the
   attribute setters (both a `ValueError` in Python), and the storage error
   every statement raises while the `departments` table does not exist.
   */
  datatype Error = InvalidType(field: Field) | EmptyValue(field: Field) | NoSuchTable

  /** A reference to a live Python object. */
  type Handle = nat

  /** The instance attributes: `id` is `None` while the object is transient. */
  datatype Department = Department(id: Option<int>, name: string, location: string)

  /** The non-key columns of one row of the `departments` table. */
  datatype Row = Row(name: string, location: string)

  type Table = map<int, Row>

  /**
   Everything the class touches: the table (`None` when it does not exist),
   the identity map, the object heap and the next unused handle.
   */
  datatype Store = Store(table: Option<Table>, all: map<int, Handle>, heap: map<Handle, Department>, nextHandle: Handle)

  /**
   The store after an operation together with its outcome. A Python exception
   does not undo the assignments made before it, so the store is returned on
   failure too.
   */
  datatype Step<+T> = Step(store: Store, out: Result<T, Error>)

  /** A fresh process: no table, nothing cached, no objects. */
  const Initial := Store(None, map[], map[], 0)

  /** A value the setters accept: a string that is not blank once stripped. */
  predicate Acceptable(v: Value)
  {
    v.Str? && HasText(v.s)
  }

  /** The error a setter for `f` raises on a value it refuses. */
  function Rejection(v: Value, f: Field): Error
  {
    if v.Str? then EmptyValue(f) else InvalidType(f)
  }

  /** The ids an `id` attribute can match in a `WHERE id = ?` clause; `None` (SQL NULL) matches none. */
  function Key(id: Option<int>): set<int>
  {
    if id.Some? then {id.value} else {}
  }

  /** Handles in the identity map exist, and every allocated handle is below `nextHandle`. */
  predicate WellFormed(st: Store)
  {
    && (forall k | k in st.all :: st.all[k] in st.heap)
    && (forall h | h in st.heap :: h < st.nextHandle)
  }

  predicate RowValid(row: Row)
  {
    HasText(row.name) && HasText(row.location)
  }

  predicate TableValid(t: Table)
  {
    forall k | k in t :: RowValid(t[k])
  }

  /** Every live object, and every stored row, holds two non-blank strings. */
  predicate Valid(st: Store)
  {
    && WellFormed(st)
    && (forall h | h in st.heap :: HasText(st.heap[h].name) && HasText(st.heap[h].location))
    && (st.table.Some? ==> TableValid(st.table.value))
  }

  /** Each identity-map entry points at an object that carries that id. */
  predicate Coherent(st: Store)
  {
    forall k | k in st.all :: st.all[k] in st.heap && st.heap[st.all[k]].id == Some(k)
  }

  /** No identity-map entry points at `h`. */
  predicate Unregistered(st: Store, h: Handle)
  {
    forall k | k in st.all :: st.all[k] != h
  }

  /** Well-formedness and validity survive the step from `st` to `st'`. */
  predicate KeepsValid(st: Store, st': Store)
  {
    && (WellFormed(st) ==> WellFormed(st'))
    && (Valid(st) ==> Valid(st'))
  }

  /** From `st` to `st'` only the object `h` may have changed. */
  predicate OnlyObjectChanged(st: Store, st': Store, h: Handle)
  {
    && st'.table == st.table
    && st'.all == st.all
    && st'.nextHandle == st.nextHandle
    && st'.heap.Keys == st.heap.Keys
    && (forall g | g in st.heap && g != h :: st'.heap[g] == st.heap[g])
  }

  /** Each persisted id is held by one object, and each object by at most one id. */
  lemma CoherentMapIsInjective(st: Store, k1: int, k2: int)
    requires Coherent(st)
    requires k1 in st.all && k2 in st.all && st.all[k1] == st.all[k2]
    ensures k1 == k2
  {
  }

  /**
   The check both setters perform: a non-string raises the type error, a
   string that strips to nothing raises the emptiness error, and anything else
   is stored exactly as given, untrimmed.
   */
  function CheckText(v: Value, f: Field): (r: Result<string, Error>)
    ensures r.Success? <==> Acceptable(v)
    ensures r.Success? ==> r.value == v.s
    ensures r.Failure? ==> r.error == Rejection(v, f)
  {
    if !v.Str? then Failure(InvalidType(f))
    else if (StripEmptyIffNoText(v.s); |Strip(v.s)| == 0) then Failure(EmptyValue(f))
    else Success(v.s)
  }

  /** The `name` getter: in a valid store it never returns a blank string. */
  function NameOf(st: Store, h: Handle): (s: string)
    requires h in st.heap
    ensures Valid(st) ==> HasText(s)
  {
    st.heap[h].name
  }

  /** The `location` getter: in a valid store it never returns a blank string. */
  function LocationOf(st: Store, h: Handle): (s: string)
    requires h in st.heap
    ensures Valid(st) ==> HasText(s)
  {
    st.heap[h].location
  }

  /** Overwriting one existing object's attributes, keeping its id, keeps the invariants. */
  lemma ReplaceObject(st: Store, h: Handle, d: Department)
    requires h in st.heap && d.id == st.heap[h].id
    ensures WellFormed(st) ==> WellFormed(st.(heap := st.heap[h := d]))
    ensures Valid(st) && HasText(d.name) && HasText(d.location) ==> Valid(st.(heap := st.heap[h := d]))
    ensures Coherent(st) ==> Coherent(st.(heap := st.heap[h := d]))
  {
    var st' := st.(heap := st.heap[h := d]);
    if Coherent(st) {
      forall k | k in st'.all
        ensures st'.all[k] in st'.heap && st'.heap[st'.all[k]].id == Some(k)
      {
        assert st.all[k] in st.heap;
      }
    }
  }

  /** Adding a fresh object to the heap, and moving `nextHandle` past it, keeps the invariants. */
  lemma AddObject(st: Store, h: Handle, d: Department)
    requires WellFormed(st) && h == st.nextHandle
    ensures h !in st.heap
    ensures WellFormed(st.(heap := st.heap[h := d], nextHandle := h + 1))
    ensures Valid(st) && HasText(d.name) && HasText(d.location) ==> Valid(st.(heap := st.heap[h := d], nextHandle := h + 1))
    ensures Coherent(st) ==> Coherent(st.(heap := st.heap[h := d], nextHandle := h + 1))
  {
    var st' := st.(heap := st.heap[h := d], nextHandle := h + 1);
    if Coherent(st) {
      forall k | k in st'.all
        ensures st'.all[k] in st'.heap && st'.heap[st'.all[k]].id == Some(k)
      {
        assert st.all[k] in st.heap && st.all[k] != h;
      }
    }
  }

  /** The `name` setter: validate, then store the value on object `h` and nowhere else. */
  function SetName(st: Store, h: Handle, v: Value): (r: Step<()>)
    requires h in st.heap
    ensures r.out.Success? <==> Acceptable(v)
    ensures r.out.Failure? ==> r.store == st && r.out.error == Rejection(v, NameField)
    ensures r.out.Success? ==> OnlyObjectChanged(st, r.store, h)
    ensures r.out.Success? ==> r.store.heap[h] == st.heap[h].(name := v.s)
    ensures KeepsValid(st, r.store)
    ensures Coherent(st) ==> Coherent(r.store)
  {
    match CheckText(v, NameField)
    case Failure(e) => Step(st, Failure(e))
    case Success(s) =>
      ReplaceObject(st, h, st.heap[h].(name := s));
      Step(st.(heap := st.heap[h := st.heap[h].(name := s)]), Success(()))
  }

  /** The `location` setter: validate, then store the value on object `h` and nowhere else. */
  function SetLocation(st: Store, h: Handle, v: Value): (r: Step<()>)
    requires h in st.heap
    ensures r.out.Success? <==> Acceptable(v)
    ensures r.out.Failure? ==> r.store == st && r.out.error == Rejection(v, LocationField)
    ensures r.out.Success? ==> OnlyObjectChanged(st, r.store, h)
    ensures r.out.Success? ==> r.store.heap[h] == st.heap[h].(location := v.s)
    ensures KeepsValid(st, r.store)
    ensures Coherent(st) ==> Coherent(r.store)
  {
    match CheckText(v, LocationField)
    case Failure(e) => Step(st, Failure(e))
    case Success(s) =>
      ReplaceObject(st, h, st.heap[h].(location := s));
      Step(st.(heap := st.heap[h := st.heap[h].(location := s)]), Success(()))
  }

  /**
   The constructor `Department(name, location, id)`: `id` is stored as given,
   then `name` and then `location` go through their setters. A refused value
   raises before the object is returned, so nothing reachable changes; on
   success the new object is transient in the sense that the identity map does
   not know it.
   */
  function New(st: Store, name: Value, location: Value, id: Option<int>): (r: Step<Handle>)
    requires WellFormed(st)
    ensures r.out.Success? <==> Acceptable(name) && Acceptable(location)
    ensures !Acceptable(name) ==> r == Step(st, Failure(Rejection(name, NameField)))
    ensures Acceptable(name) && !Acceptable(location) ==> r == Step(st, Failure(Rejection(location, LocationField)))
    ensures r.out.Success? ==>
      && r.out.value !in st.heap
      && r.store.heap == st.heap[r.out.value := Department(id, name.s, location.s)]
      && r.store.table == st.table
      && r.store.all == st.all
    ensures KeepsValid(st, r.store)
    ensures Coherent(st) ==> Coherent(r.store)
  {
    var h := st.nextHandle;
    match CheckText(name, NameField)
    case Failure(e) => Step(st, Failure(e))
    case Success(n) =>
      match CheckText(location, LocationField)
      case Failure(e) => Step(st, Failure(e))
      case Success(l) =>
        AddObject(st, h, Department(id, n, l));
        Step(st.(heap := st.heap[h := Department(id, n, l)], nextHandle := h + 1), Success(h))
  }

  /** Assigning an accepted string and reading it back gives the very same string. */
  lemma AssignThenRead(st: Store, h: Handle, s: string)
    requires h in st.heap && HasText(s)
    ensures SetName(st, h, Str(s)).out.Success?
    ensures NameOf(SetName(st, h, Str(s)).store, h) == s
    ensures SetLocation(st, h, Str(s)).out.Success?
    ensures LocationOf(SetLocation(st, h, Str(s)).store, h) == s
  {
  }

  /** A whitespace-only name is refused although it is not empty, and surrounding spaces are kept. */
  lemma BlankAndPaddedNames(st: Store, h: Handle)
    requires h in st.heap
    ensures SetName(st, h, Str(" \t\n")).out == Failure(EmptyValue(NameField))
    ensures SetName(st, h, Str("")).out == Failure(EmptyValue(NameField))
    ensures SetName(st, h, NotStr).out == Failure(InvalidType(NameField))
    ensures NameOf(SetName(st, h, Str(" HR ")).store, h) == " HR "
  {
    assert !HasText(" \t\n");
    assert !IsSpace(" HR "[1]);
  }
}

=== FILE: persistence.dfy ===
/**
 The write side of the active record: table lifecycle, `save`, `create`,
 `update` and `delete`, each one SQL statement turned into a pure operation on
 the abstract table, followed by the identity-map and attribute bookkeeping
 the class performs in memory.
 */
module Persistence {
  import opened Wrappers
  import opened Departments

  /** A row id the storage may hand out on insert: any id the table does not already use. */
  predicate Fresh(st: Store, rowId: int)
  {
    st.table.Some? ==> rowId !in st.table.value
  }

  /** `m'` is `m` with a new key `k` bound to `v` and every old binding kept. */
  predicate Inserted<K, V(==)>(m: map<K, V>, m': map<K, V>, k: K, v: V)
  {
    && k !in m
    && m'.Keys == m.Keys + {k}
    && m'[k] == v
    && (forall j | j in m :: m'[j] == m[j])
  }

  /** `m'` is `m` with the keys in `gone` removed and every other binding kept. */
  predicate Without<K, V(==)>(m: map<K, V>, m': map<K, V>, gone: set<K>)
  {
    && m'.Keys == m.Keys - gone
    && (forall j | j in m' :: j in m && m'[j] == m[j])
  }

  /** Two maps with the same keys and the same value at every key are equal. */
  lemma SameMap<K, V>(m: map<K, V>, m': map<K, V>)
    requires m.Keys == m'.Keys && forall k | k in m :: m[k] == m'[k]
    ensures m == m'
  {
  }

  /** `create_table`: creates an empty table unless one exists; the identity map and objects are untouched. */
  function CreateTable(st: Store): (r: Store)
    ensures r.table.Some?
    ensures st.table.Some? ==> r.table == st.table
    ensures st.table.None? ==> r.table.value == map[]
    ensures r.all == st.all && r.heap == st.heap && r.nextHandle == st.nextHandle
    ensures KeepsValid(st, r)
    ensures Coherent(st) ==> Coherent(r)
  {
    if st.table.Some? then st else st.(table := Some(map[]))
  }

  /** `drop_table`: removes the table if it exists; the identity map keeps every entry. */
  function DropTable(st: Store): (r: Store)
    ensures r.table.None?
    ensures r.all == st.all && r.heap == st.heap && r.nextHandle == st.nextHandle
    ensures KeepsValid(st, r)
    ensures Coherent(st) ==> Coherent(r)
  {
    st.(table := None)
  }

  /**
   `save`: inserts a new row holding the object's current `name` and
   `location`, sets the object's `id` to the row id the storage assigned, and
   registers the object under that id. Nothing prevents saving an object that
   is already persisted: a second row is inserted and the old identity-map
   entry is left behind.
   */
  function Save(st: Store, h: Handle, rowId: int): (r: Step<()>)
    requires WellFormed(st) && h in st.heap && Fresh(st, rowId)
    ensures st.table.None? ==> r == Step(st, Failure(NoSuchTable))
    ensures st.table.Some? ==> r.out.Success?
    ensures r.out.Success? ==>
      && r.store.table.Some?
      && Inserted(st.table.value, r.store.table.value, rowId, Row(st.heap[h].name, st.heap[h].location))
    ensures r.out.Success? ==>
      && r.store.heap.Keys == st.heap.Keys
      && r.store.heap[h] == st.heap[h].(id := Some(rowId))
      && (forall g | g in st.heap && g != h :: r.store.heap[g] == st.heap[g])
    ensures r.out.Success? ==>
      && r.store.all.Keys == st.all.Keys + {rowId}
      && r.store.all[rowId] == h
      && (forall k | k in st.all && k != rowId :: r.store.all[k] == st.all[k])
    ensures KeepsValid(st, r.store)
    ensures Coherent(st) && Unregistered(st, h) ==> Coherent(r.store)
  {
    if st.table.None? then Step(st, Failure(NoSuchTable))
    else
      var d := st.heap[h];
      Step(Store(Some(st.table.value[rowId := Row(d.name, d.location)]),
                 st.all[rowId := h],
                 st.heap[h := d.(id := Some(rowId))],
                 st.nextHandle),
           Success(()))
  }

  /**
   `create(name, location)`: constructs an object (raising on a refused value
   before anything is stored) and saves it. If the table is missing, the
   constructed object is never registered and the storage error is raised.
   */
  function Create(st: Store, name: Value, location: Value, rowId: int): (r: Step<Handle>)
    requires WellFormed(st) && Fresh(st, rowId)
    ensures r.out.Success? <==> Acceptable(name) && Acceptable(location) && st.table.Some?
    ensures !(Acceptable(name) && Acceptable(location)) ==> r.store == st && r.out.Failure? && r.out.error != NoSuchTable
    ensures Acceptable(name) && Acceptable(location) && st.table.None? ==>
      r.out == Failure(NoSuchTable) && r.store.all == st.all && r.store.table == st.table
    ensures r.out.Success? ==>
      && r.out.value !in st.heap
      && r.store.heap == st.heap[r.out.value := Department(Some(rowId), name.s, location.s)]
      && r.store.all == st.all[rowId := r.out.value]
      && r.store.table == Some(st.table.value[rowId := Row(name.s, location.s)])
    ensures KeepsValid(st, r.store)
    ensures Coherent(st) ==> Coherent(r.store)
  {
    var made := New(st, name, location, None);
    match made.out
    case Failure(e) => Step(made.store, Failure(e))
    case Success(h) =>
      SaveNew(st, made.store, h, Department(None, name.s, location.s), rowId);
      var saved := Save(made.store, h, rowId);
      match saved.out
      case Failure(e) => Step(saved.store, Failure(e))
      case Success(_) => Step(saved.store, Success(h))
  }

  /**
   Saving an object that was just added to the heap: it is not registered yet,
   and the save binds it under the row id in both the heap and the identity map.
   */
  lemma SaveNew(st: Store, st': Store, h: Handle, d: Department, rowId: int)
    requires WellFormed(st) && WellFormed(st') && Fresh(st, rowId) && h !in st.heap
    requires st'.heap == st.heap[h := d] && st'.all == st.all && st'.table == st.table
    ensures h in st'.heap && Fresh(st', rowId)
    ensures Unregistered(st', h)
    ensures st.table.Some? ==>
      && Save(st', h, rowId).store.heap == st.heap[h := d.(id := Some(rowId))]
      && Save(st', h, rowId).store.all == st.all[rowId := h]
  {
    if st.table.Some? {
      var saved := Save(st', h, rowId).store;
      SameMap(saved.heap, st.heap[h := d.(id := Some(rowId))]);
      SameMap(saved.all, st.all[rowId := h]);
    }
  }

  /**
   `update`: rewrites the row whose key equals the object's `id` with its
   current `name` and `location`. When no row has that key, `None` included,
   no row is touched and nothing is raised.
   */
  function Update(st: Store, h: Handle): (r: Step<()>)
    requires h in st.heap
    ensures st.table.None? ==> r == Step(st, Failure(NoSuchTable))
    ensures st.table.Some? ==> r.out.Success?
    ensures r.store.all == st.all && r.store.heap == st.heap && r.store.nextHandle == st.nextHandle
    ensures r.out.Success? ==> r.store.table.Some?
    ensures r.out.Success? ==>
      var t, t' := st.table.value, r.store.table.value;
      && t'.Keys == t.Keys
      && (forall k | k in t :: t'[k] == (if st.heap[h].id == Some(k) then Row(st.heap[h].name, st.heap[h].location) else t[k]))
    ensures r.out.Success? && (Key(st.heap[h].id) !! st.table.value.Keys) ==> r.store == st
    ensures KeepsValid(st, r.store)
    ensures Coherent(st) ==> Coherent(r.store)
  {
    if st.table.None? then Step(st, Failure(NoSuchTable))
    else
      var d := st.heap[h];
      var t := st.table.value;
      if d.id.Some? && d.id.value in t then
        Step(st.(table := Some(t[d.id.value := Row(d.name, d.location)])), Success(()))
      else
        Step(st, Success(()))
  }

  /**
   `delete`: removes the row keyed by the object's `id` (if any), pops that key
   from the identity map whatever object it names, and makes the object
   transient again by setting its `id` to `None`.
   */
  function Delete(st: Store, h: Handle): (r: Step<()>)
    requires WellFormed(st) && h in st.heap
    ensures st.table.None? ==> r == Step(st, Failure(NoSuchTable))
    ensures st.table.Some? ==> r.out.Success?
    ensures r.out.Success? ==>
      && r.store.table.Some?
      && Without(st.table.value, r.store.table.value, Key(st.heap[h].id))
      && Without(st.all, r.store.all, Key(st.heap[h].id))
    ensures r.out.Success? ==>
      && r.store.heap.Keys == st.heap.Keys
      && r.store.heap[h] == st.heap[h].(id := None)
      && (forall g | g in st.heap && g != h :: r.store.heap[g] == st.heap[g])
    ensures KeepsValid(st, r.store)
    ensures Coherent(st) ==> Coherent(r.store)
  {
    if st.table.None? then Step(st, Failure(NoSuchTable))
    else
      var d := st.heap[h];
      var gone := Key(d.id);
      Step(Store(Some(st.table.value - gone), st.all - gone, st.heap[h := d.(id := None)], st.nextHandle),
           Success(()))
  }
}

=== FILE: properties.dfy ===
/**
 Properties that relate several operations: reads reflect the table, the
 identity map hands back one instance per row id, writes are visible to later
 reads, and the documented quirk of saving twice.
 */
module Properties {
  import opened Wrappers
  import opened PyText
  import opened Departments
  import opened Persistence
  import opened ReadPath

  /** `ks` with its head dropped is still duplicate-free, and does not contain the head. */
  lemma DistinctTail(ks: seq<int>)
    requires |ks| > 0 && Distinct(ks)
    ensures Distinct(ks[1..]) && ks[0] !in ks[1..]
  {
    var tail := ks[1..];
    forall i | 0 <= i < |tail| ensures tail[i] != ks[0] {
      assert tail[i] == ks[i + 1];
    }
  }

  /** The object for row `k` of table `t`, as reconstruction from a coherent store builds it. */
  function RowObject(t: Table, k: int): Department
    requires k in t
  {
    Department(Some(k), t[k].name, t[k].location)
  }

  /** The inductive step of `FromRowsReflectTable`: prepending the head's object to the tail's objects. */
  lemma ReflectCons(heap: map<Handle, Department>, t: Table, k: int, tail: seq<int>, h: Handle, hs: seq<Handle>)
    requires |hs| == |tail| && k in t
    requires forall i | 0 <= i < |tail| :: tail[i] in t
    requires h in heap && heap[h] == RowObject(t, k)
    requires forall i | 0 <= i < |hs| :: hs[i] in heap && heap[hs[i]] == RowObject(t, tail[i])
    ensures forall i | 0 <= i < |hs| + 1 ::
      ([h] + hs)[i] in heap && ([k] + tail)[i] in t && heap[([h] + hs)[i]] == RowObject(t, ([k] + tail)[i])
  {
    forall i | 0 <= i < |hs| + 1
      ensures ([h] + hs)[i] in heap && ([k] + tail)[i] in t && heap[([h] + hs)[i]] == RowObject(t, ([k] + tail)[i])
    {
      if i > 0 {
        assert ([h] + hs)[i] == hs[i - 1] && ([k] + tail)[i] == tail[i - 1];
      }
    }
  }

  /**
   Reconstructing distinct rows one after another, from a coherent store,
   when it succeeds leaves each returned object equal to its row, with the row id as
   `id`.
   */
  lemma {:induction false} FromRowsReflectTable(st: Store, t: Table, ks: seq<int>)
    requires WellFormed(st) && Coherent(st)
    requires forall i | 0 <= i < |ks| :: ks[i] in t
    requires Distinct(ks)
    requires FromRows(st, t, ks).out.Success?
    ensures var r := FromRows(st, t, ks);
      forall i | 0 <= i < |ks| :: r.out.value[i] in r.store.heap && r.store.heap[r.out.value[i]] == RowObject(t, ks[i])
    decreases |ks|
  {
    if |ks| > 0 {
      var first := InstanceFromDb(st, ks[0], t[ks[0]]);
      var h := first.out.value;
      var tail := ks[1..];
      DistinctTail(ks);
      FromRowsReflectTable(first.store, t, tail);
      var rest := FromRows(first.store, t, tail);
      assert first.store.all[ks[0]] == h;
      assert rest.store.heap[h] == first.store.heap[h];
      ReflectCons(rest.store.heap, t, ks[0], tail, h, rest.out.value);
      HeadTail(ks);
      assert FromRows(st, t, ks) == Step(rest.store, Success([h] + rest.out.value));
    }
  }

  /**
   From a valid, coherent store, `get_all` returns one object per row, each
   holding exactly that row's id, name and location, and no object twice.
   */
  lemma GetAllReflectsTable(st: Store, scan: seq<int>)
    requires Valid(st) && Coherent(st) && st.table.Some?
    requires ScanOrder(st.table.value, scan)
    ensures var r := GetAll(st, scan);
      && r.out.Success?
      && (forall i | 0 <= i < |scan| :: r.store.heap[r.out.value[i]] == RowObject(st.table.value, scan[i]))
      && (forall i, j | 0 <= i < j < |scan| :: r.out.value[i] != r.out.value[j])
  {
    FromRowsReflectTable(st, st.table.value, scan);
  }

  /** Two successive `find_by_id` calls for one id return the same instance. */
  lemma FindByIdTwice(st: Store, id: int)
    requires WellFormed(st)
    ensures var first := FindById(st, Some(id));
      first.out.Success? && first.out.value.Some? ==>
        var second := FindById(first.store, Some(id));
        second.out.Success? && second.out.value == first.out.value
  {
  }

  /** Every object `get_all` returns is the instance a later `find_by_id` of its row id returns. */
  lemma GetAllThenFindById(st: Store, scan: seq<int>, i: int)
    requires Valid(st) && st.table.Some? && ScanOrder(st.table.value, scan)
    requires 0 <= i < |scan|
    ensures var all := GetAll(st, scan);
      var found := FindById(all.store, Some(scan[i]));
      found.out == Success(Some(all.out.value[i]))
  {
  }

  /**
   Round trip: `create(name, location)` followed by `find_by_id` of the new id
   gives back the created instance, with the same id, name and location.
   */
  lemma CreateThenFindById(st: Store, name: string, location: string, rowId: int)
    requires Valid(st) && st.table.Some? && rowId !in st.table.value
    requires HasText(name) && HasText(location)
    ensures var made := Create(st, Str(name), Str(location), rowId);
      && made.out.Success?
      && var found := FindById(made.store, Some(rowId));
         && found.out == Success(Some(made.out.value))
         && found.store.heap[made.out.value] == Department(Some(rowId), name, location)
  {
  }

  /**
   Update then read: assigning a new `name` to a persisted object and calling
   `update` makes the next `find_by_id` of its id return an object with that
   name, whichever instance the identity map holds for the id.
   */
  lemma UpdateThenFindById(st: Store, h: Handle, name: string)
    requires Valid(st) && st.table.Some? && h in st.heap
    requires st.heap[h].id.Some? && st.heap[h].id.value in st.table.value
    requires HasText(name)
    ensures var renamed := SetName(st, h, Str(name));
      var updated := Update(renamed.store, h);
      var found := FindById(updated.store, st.heap[h].id);
      && found.out.Success? && found.out.value.Some?
      && found.store.heap[found.out.value.value].name == name
  {
    var renamed := SetName(st, h, Str(name));
    var updated := Update(renamed.store, h);
    var k := st.heap[h].id.value;
    assert updated.store.table.value[k].name == name;
  }

  /**
   Delete then read: after `delete`, `find_by_id` of the former id finds
   nothing, the identity map no longer has the id, and the object is transient.
   */
  lemma DeleteThenFindById(st: Store, h: Handle)
    requires WellFormed(st) && st.table.Some? && h in st.heap && st.heap[h].id.Some?
    ensures var k := st.heap[h].id.value;
      var gone := Delete(st, h);
      && gone.store.heap[h].id.None?
      && k !in gone.store.all
      && FindById(gone.store, Some(k)) == Step(gone.store, Success(None))
  {
  }

  /**
   Saving an already persisted object inserts a second row and re-registers the
   object under the new id, while the entry for the first id still names it: the
   identity map is then no longer coherent.
   */
  lemma SaveTwiceLeavesStaleEntry(st: Store, h: Handle, a: int, b: int)
    requires WellFormed(st) && h in st.heap && st.table.Some?
    requires a !in st.table.value && b !in st.table.value && a != b
    ensures var once := Save(st, h, a).store;
      var twice := Save(once, h, b).store;
      && a in twice.table.value && b in twice.table.value
      && twice.all[a] == h && twice.all[b] == h
      && twice.heap[h].id == Some(b)
      && !Coherent(twice)
  {
    var once := Save(st, h, a).store;
    var twice := Save(once, h, b).store;
    assert twice.all[a] == h;
  }

  /** Listing a table whose only key is cached under `k` returns that one cached instance. */
  lemma ListSingleRow(st: Store, k: int)
    requires Valid(st) && st.table.Some? && st.table.value.Keys == {k} && k in st.all
    ensures ScanOrder(st.table.value, [k])
    ensures GetAll(st, [k]).out == Success([st.all[k]])
  {
    assert ScanOrder(st.table.value, [k]);
    var listed := GetAll(st, [k]);
    assert listed.out.Success? && |listed.out.value| == 1;
    assert listed.out.value[0] == st.all[k];
    assert listed.out.value == [st.all[k]];
  }

  /** Binding a key in a map without keys leaves that key as its only one. */
  lemma OnlyKey<V>(m: map<int, V>, k: int, v: V)
    requires m.Keys == {}
    ensures m[k := v].Keys == {k}
  {
    assert m == map[];
  }

  /** A fresh process after `create_table`: an empty table, nothing cached, no objects. */
  lemma FreshTable()
    ensures var s0 := CreateTable(Initial);
      && s0.table.Some? && s0.table.value.Keys == {} && s0.all.Keys == {}
      && Valid(s0) && Coherent(s0)
  {
  }

  /**
   Creating the first department in an empty table, with nothing cached, makes
   it the table's only row and the only identity-map entry, and `get_all`
   then lists exactly that instance.
   */
  lemma FirstCreate(st: Store, name: string, location: string, rowId: int)
    requires Valid(st) && Coherent(st) && st.table.Some? && st.table.value.Keys == {} && st.all.Keys == {}
    requires HasText(name) && HasText(location)
    ensures var made := Create(st, Str(name), Str(location), rowId);
      && made.out.Success?
      && made.store.table.Some? && made.store.table.value.Keys == {rowId}
      && made.store.all.Keys == {rowId} && made.store.all[rowId] == made.out.value
      && made.store.heap[made.out.value] == Department(Some(rowId), name, location)
      && Valid(made.store) && Coherent(made.store)
      && ScanOrder(made.store.table.value, [rowId])
      && GetAll(made.store, [rowId]).out == Success([made.out.value])
  {
    var made := Create(st, Str(name), Str(location), rowId);
    OnlyKey(st.table.value, rowId, Row(name, location));
    OnlyKey(st.all, rowId, made.out.value);
    ListSingleRow(made.store, rowId);
  }

  /**
   Dropping and re-creating the table: `get_all` then lists nothing, while the
   identity map keeps every entry it had, so a later `find_by_id` cannot
   resurrect them but the old instances stay cached.
   */
  lemma DropThenCreate(st: Store)
    requires WellFormed(st)
    ensures var s1 := CreateTable(DropTable(st));
      && s1.table == Some(map[])
      && (forall scan | ScanOrder(s1.table.value, scan) :: GetAll(s1, scan).out == Success([]))
      && s1.all == st.all
  {
  }
}

=== FILE: pytext.dfy ===
/**
 Python's `str.strip()` with no argument, and the notion of a blank string it induces:
 a string is blank when stripping it leaves nothing.
 */
module PyText {

  /** The characters Python's `str.isspace()` accepts, which `str.strip()` removes. */
  predicate IsSpace(c: char)
  {
    || ('\t' <= c <= '\r')
    || ('\U{1C}' <= c <= ' ')
    || c == '\U{85}' || c == '\U{A0}' || c == '\U{1680}'
    || ('\U{2000}' <= c <= '\U{200A}')
    || c == '\U{2028}' || c == '\U{2029}' || c == '\U{202F}' || c == '\U{205F}'
    || c == '\U{3000}'
  }

  /** Every character of `s` is whitespace (vacuously true of the empty string). */
  predicate AllSpace(s: string)
  {
    forall i | 0 <= i < |s| :: IsSpace(s[i])
  }

  /** Some character of `s` is not whitespace. */
  predicate HasText(s: string)
    decreases |s|
  {
    |s| > 0 && (!IsSpace(s[0]) || HasText(s[1..]))
  }

  /** `HasText` is the negation of `AllSpace`. */
  lemma {:induction false} HasTextIffNotAllSpace(s: string)
    ensures HasText(s) <==> !AllSpace(s)
    decreases |s|
  {
    if |s| > 0 {
      HasTextIffNotAllSpace(s[1..]);
      assert AllSpace(s) <==> IsSpace(s[0]) && AllSpace(s[1..]) by {
        if IsSpace(s[0]) && AllSpace(s[1..]) {
          forall i | 0 <= i < |s| ensures IsSpace(s[i]) {
            if i > 0 { assert s[i] == s[1..][i - 1]; }
          }
        }
      }
    }
  }

  /** `str.lstrip()`: the suffix left after dropping the leading whitespace. */
  function LStrip(s: string): (r: string)
    ensures |r| <= |s| && r == s[|s| - |r|..]
    ensures forall i | 0 <= i < |s| - |r| :: IsSpace(s[i])
    ensures r == [] || !IsSpace(r[0])
    decreases |s|
  {
    if |s| > 0 && IsSpace(s[0]) then LStrip(s[1..]) else s
  }

  /** `str.rstrip()`: the prefix left after dropping the trailing whitespace. */
  function RStrip(s: string): (r: string)
    ensures |r| <= |s| && r == s[..|r|]
    ensures forall i | |r| <= i < |s| :: IsSpace(s[i])
    ensures r == [] || !IsSpace(r[|r| - 1])
    decreases |s|
  {
    if |s| > 0 && IsSpace(s[|s| - 1]) then RStrip(s[..|s| - 1]) else s
  }

  /** `str.strip()`: both ends stripped. */
  function Strip(s: string): string
  {
    RStrip(LStrip(s))
  }

  /**
   `str.strip()` keeps the middle part of `s`, starting `cut` characters in,
   and drops only whitespace on either side of it; what it keeps neither
   starts nor ends with whitespace.
   */
  lemma StripTrimsBothEnds(s: string)
    ensures var r, cut := Strip(s), |s| - |LStrip(s)|;
      && cut + |r| <= |s|
      && (forall i | 0 <= i < |r| :: r[i] == s[cut + i])
      && (forall i | 0 <= i < cut :: IsSpace(s[i]))
      && (forall i | cut + |r| <= i < |s| :: IsSpace(s[i]))
      && (r == [] || (!IsSpace(r[0]) && !IsSpace(r[|r| - 1])))
  {
  }

  /** Stripping leaves nothing exactly when the string is made of whitespace only. */
  lemma {:induction false} StripEmptyIffAllSpace(s: string)
    ensures |Strip(s)| == 0 <==> AllSpace(s)
  {
    var l := LStrip(s);
    var r := RStrip(l);
    var cut := |s| - |l|;
    // When `r` is empty, `l` is whitespace only and so, starting with no
    // whitespace, is empty itself: all of `s` was stripped from the left.
    if |r| != 0 {
      assert l[|r| - 1] == r[|r| - 1];
      assert s[cut + |r| - 1] == l[|r| - 1];
    }
  }

  /** `s.strip()` is empty exactly when `s` has no non-whitespace character. */
  lemma StripEmptyIffNoText(s: string)
    ensures |Strip(s)| == 0 <==> !HasText(s)
  {
    StripEmptyIffAllSpace(s);
    HasTextIffNotAllSpace(s);
  }
}

=== FILE: readpath.dfy ===
/**
 The read side of the active record: the row-to-object rule
 `instance_from_db` and the three reads built on it, `find_by_id`,
 `find_by_name` and `get_all`.

 A `SELECT` without `ORDER BY` returns rows in an order the storage chooses.
 That order is a parameter `scan`: some duplicate-free listing of the
 table's keys. `get_all` reconstructs the rows in that order, and
 `find_by_name` takes the first row of it whose name matches.
 */
module ReadPath {
  import opened Wrappers
  import opened PyText
  import opened Departments

  /** No key occurs twice in `ks`. */
  predicate Distinct(ks: seq<int>)
  {
    forall i, j | 0 <= i < j < |ks| :: ks[i] != ks[j]
  }

  /** `scan` lists every key of `t` exactly once. */
  predicate ScanOrder(t: Table, scan: seq<int>)
  {
    && (forall i | 0 <= i < |scan| :: scan[i] in t)
    && (forall k | k in t :: k in scan)
    && Distinct(scan)
  }

  /**
   The cache-hit branch of `instance_from_db`: the object cached under `k` has
   its `name`, then its `location`, reassigned from the row. A refused
   `location` raises after `name` has already been overwritten.
   */
  function Refresh(st: Store, k: int, row: Row): (r: Step<Handle>)
    requires WellFormed(st) && k in st.all
    ensures r.out.Success? <==> RowValid(row)
    ensures r.out.Success? ==>
      && r.out.value == st.all[k]
      && OnlyObjectChanged(st, r.store, st.all[k])
      && r.store.heap[st.all[k]] == st.heap[st.all[k]].(name := row.name, location := row.location)
    ensures !HasText(row.name) ==> r == Step(st, Failure(EmptyValue(NameField)))
    ensures HasText(row.name) && !HasText(row.location) ==>
      && r.out == Failure(EmptyValue(LocationField))
      && OnlyObjectChanged(st, r.store, st.all[k])
      && r.store.heap[st.all[k]] == st.heap[st.all[k]].(name := row.name)
    ensures r.store.table == st.table && r.store.all == st.all
    ensures WellFormed(r.store) && KeepsValid(st, r.store)
    ensures forall j | j in st.all :: j in r.store.all && r.store.all[j] == st.all[j]
    ensures st.heap.Keys <= r.store.heap.Keys
    ensures Coherent(st) ==> Coherent(r.store)
    ensures forall g | g in st.heap && g != st.all[k] :: r.store.heap[g] == st.heap[g]
    ensures Coherent(st) ==>
      forall j | j in st.all && j != k :: r.store.heap[st.all[j]] == st.heap[st.all[j]]
    ensures Coherent(st) && r.out.Success? ==>
      r.store.heap[r.out.value] == Department(Some(k), row.name, row.location)
  {
    var h := st.all[k];
    var named := SetName(st, h, Str(row.name));
    if named.out.Failure? then Step(named.store, Failure(named.out.error))
    else
      var located := SetLocation(named.store, h, Str(row.location));
      if located.out.Failure? then Step(located.store, Failure(located.out.error))
      else Step(located.store, Success(h))
  }

  /** Registering under `k` an existing object whose id is `k` keeps the invariants. */
  lemma RegisterKeeps(st: Store, k: int, h: Handle)
    requires h in st.heap && st.heap[h].id == Some(k)
    ensures WellFormed(st) ==> WellFormed(st.(all := st.all[k := h]))
    ensures Valid(st) ==> Valid(st.(all := st.all[k := h]))
    ensures Coherent(st) ==> Coherent(st.(all := st.all[k := h]))
  {
  }

  /** Adding a new object and a new identity-map entry for it leaves every old entry and object as it was. */
  lemma ExtendFrame(st: Store, st': Store, k: int, h: Handle)
    requires WellFormed(st) && h !in st.heap && k !in st.all
    requires h in st'.heap && st'.heap == st.heap[h := st'.heap[h]] && st'.all == st.all[k := h]
    ensures forall j | j in st.all :: j in st'.all && st'.all[j] == st.all[j]
    ensures st.heap.Keys <= st'.heap.Keys
    ensures forall j | j in st.all :: st'.heap[st.all[j]] == st.heap[st.all[j]]
    ensures forall g | g in st.heap :: st'.heap[g] == st.heap[g]
  {
  }

  /**
   The cache-miss branch of `instance_from_db`: construct an object from the
   row, with the row id as its `id`, and register it under that id.
   */
  function Register(st: Store, k: int, row: Row): (r: Step<Handle>)
    requires WellFormed(st) && k !in st.all
    ensures r.out.Success? <==> RowValid(row)
    ensures r.out.Failure? ==> r.store == st
    ensures !HasText(row.name) ==> r.out == Failure(EmptyValue(NameField))
    ensures HasText(row.name) && !HasText(row.location) ==> r.out == Failure(EmptyValue(LocationField))
    ensures r.out.Success? ==>
      && r.out.value !in st.heap
      && r.store.heap == st.heap[r.out.value := Department(Some(k), row.name, row.location)]
      && r.store.all == st.all[k := r.out.value]
    ensures r.store.table == st.table
    ensures WellFormed(r.store) && KeepsValid(st, r.store)
    ensures forall j | j in st.all :: j in r.store.all && r.store.all[j] == st.all[j]
    ensures st.heap.Keys <= r.store.heap.Keys
    ensures Coherent(st) ==> Coherent(r.store)
    ensures forall j | j in st.all :: r.store.heap[st.all[j]] == st.heap[st.all[j]]
    ensures forall g | g in st.heap :: r.store.heap[g] == st.heap[g]
  {
    var made := New(st, Str(row.name), Str(row.location), Some(k));
    if made.out.Failure? then made
    else
      var st' := made.store.(all := made.store.all[k := made.out.value]);
      RegisterKeeps(made.store, k, made.out.value);
      ExtendFrame(st, st', k, made.out.value);
      Step(st', made.out)
  }

  /**
   `instance_from_db(row)`: when the identity map already holds an object for
   the row id, that very object has its `name` and then its `location`
   reassigned through the setters; otherwise a new object is constructed with
   the row id and registered under it. Either way the result is the object the
   identity map now holds for the row id.
   */
  function InstanceFromDb(st: Store, k: int, row: Row): (r: Step<Handle>)
    requires WellFormed(st)
    ensures r.store.table == st.table
    ensures WellFormed(r.store) && KeepsValid(st, r.store)
    ensures forall j | j in st.all :: j in r.store.all && r.store.all[j] == st.all[j]
    ensures st.heap.Keys <= r.store.heap.Keys
    ensures Coherent(st) ==> Coherent(r.store)
    ensures r.out.Success? <==> RowValid(row)
    ensures r.out.Success? ==>
      && k in r.store.all && r.store.all[k] == r.out.value
      && r.out.value in r.store.heap
      && r.store.heap[r.out.value].name == row.name
      && r.store.heap[r.out.value].location == row.location
    ensures r.out.Success? && k in st.all ==>
      && r.out.value == st.all[k]
      && OnlyObjectChanged(st, r.store, st.all[k])
      && r.store.heap[st.all[k]].id == st.heap[st.all[k]].id
    ensures r.out.Success? && k !in st.all ==>
      && r.out.value !in st.heap
      && r.store.heap == st.heap[r.out.value := Department(Some(k), row.name, row.location)]
      && r.store.all == st.all[k := r.out.value]
    ensures !HasText(row.name) ==> r == Step(st, Failure(EmptyValue(NameField)))
    ensures HasText(row.name) && !HasText(row.location) ==>
      && r.out == Failure(EmptyValue(LocationField))
      && (k !in st.all ==> r.store == st)
      && (k in st.all ==>
            && OnlyObjectChanged(st, r.store, st.all[k])
            && r.store.heap[st.all[k]] == st.heap[st.all[k]].(name := row.name))
    ensures Coherent(st) ==>
      forall j | j in st.all && j != k :: r.store.heap[st.all[j]] == st.heap[st.all[j]]
    ensures Coherent(st) && r.out.Success? ==>
      r.store.heap[r.out.value] == Department(Some(k), row.name, row.location)
  {
    if k in st.all then Refresh(st, k, row) else Register(st, k, row)
  }

  /** `instance_from_db` changes no object other than the one cached under the row id. */
  lemma InstanceFromDbFrame(st: Store, k: int, row: Row)
    requires WellFormed(st)
    ensures var r := InstanceFromDb(st, k, row);
      forall g | g in st.heap && !(k in st.all && g == st.all[k]) :: r.store.heap[g] == st.heap[g]
  {
  }

  /**
   `find_by_id(id)`: `None` exactly when no row has that key (always so for a
   `None` id); otherwise the reconstruction of that row.
   */
  function FindById(st: Store, id: Option<int>): (r: Step<Option<Handle>>)
    requires WellFormed(st)
    ensures st.table.None? ==> r == Step(st, Failure(NoSuchTable))
    ensures r.out.Success? ==> st.table.Some?
    ensures st.table.Some? && Key(id) !! st.table.value.Keys ==> r == Step(st, Success(None))
    ensures st.table.Some? && id.Some? && id.value in st.table.value ==>
      (r.out.Success? <==> RowValid(st.table.value[id.value]))
    ensures r.out.Success? ==> (r.out.value.None? <==> Key(id) !! st.table.value.Keys)
    ensures r.out.Success? && r.out.value.Some? ==>
      var h, t := r.out.value.value, st.table.value;
      && id.Some? && id.value in t
      && id.value in r.store.all && r.store.all[id.value] == h
      && h in r.store.heap
      && r.store.heap[h].name == t[id.value].name
      && r.store.heap[h].location == t[id.value].location
    ensures r.out.Success? && r.out.value.Some? && id.value in st.all ==> r.out.value.value == st.all[id.value]
    ensures forall j | j in st.all :: j in r.store.all && r.store.all[j] == st.all[j]
    ensures st.heap.Keys <= r.store.heap.Keys
    ensures forall g | g in st.heap && !(id.Some? && id.value in st.all && g == st.all[id.value]) ::
      r.store.heap[g] == st.heap[g]
    ensures r.store.table == st.table && WellFormed(r.store) && KeepsValid(st, r.store)
    ensures Coherent(st) ==> Coherent(r.store)
  {
    if st.table.None? then Step(st, Failure(NoSuchTable))
    else if id.Some? && id.value in st.table.value then
      var got := InstanceFromDb(st, id.value, st.table.value[id.value]);
      InstanceFromDbFrame(st, id.value, st.table.value[id.value]);
      match got.out
      case Failure(e) => Step(got.store, Failure(e))
      case Success(h) => Step(got.store, Success(Some(h)))
    else Step(st, Success(None))
  }

  /** The position in `scan` of the first row named `name`, if any. */
  function FirstNamed(t: Table, scan: seq<int>, name: string): (r: Option<nat>)
    requires forall i | 0 <= i < |scan| :: scan[i] in t
    ensures r.None? <==> forall i | 0 <= i < |scan| :: t[scan[i]].name != name
    ensures r.Some? ==>
      && r.value < |scan|
      && t[scan[r.value]].name == name
      && forall i | 0 <= i < r.value :: t[scan[i]].name != name
    decreases |scan|
  {
    if |scan| == 0 then None
    else if t[scan[0]].name == name then Some(0)
    else
      match FirstNamed(t, scan[1..], name)
      case None => None
      case Some(i) => Some(i + 1)
  }

  /**
   `find_by_name(name)`: `None` exactly when no row has that exact name;
   otherwise the reconstruction of one row with that name (the first the
   storage returns; names are not unique).
   */
  function FindByName(st: Store, name: string, scan: seq<int>): (r: Step<Option<Handle>>)
    requires WellFormed(st)
    requires st.table.Some? ==> ScanOrder(st.table.value, scan)
    ensures st.table.None? ==> r == Step(st, Failure(NoSuchTable))
    ensures st.table.Some? && Valid(st) ==> r.out.Success?
    ensures r.out.Success? ==> st.table.Some?
    ensures r.out.Success? ==>
      (r.out.value.None? <==> forall k | k in st.table.value :: st.table.value[k].name != name)
    ensures r.out.Success? && r.out.value.None? ==> r.store == st
    ensures r.out.Success? && r.out.value.Some? ==>
      var h, t := r.out.value.value, st.table.value;
      && h in r.store.heap
      && r.store.heap[h].name == name
      && exists k | k in t && t[k].name == name ::
           && k in r.store.all && r.store.all[k] == h
           && r.store.heap[h].location == t[k].location
           && (k in st.all ==> h == st.all[k])
    ensures forall j | j in st.all :: j in r.store.all && r.store.all[j] == st.all[j]
    ensures st.heap.Keys <= r.store.heap.Keys
    ensures r.out.Success? && r.out.value.Some? ==>
      forall g | g in st.heap && g != r.out.value.value :: r.store.heap[g] == st.heap[g]
    ensures forall g | g in st.heap && g !in st.all.Values :: r.store.heap[g] == st.heap[g]
    ensures r.store.table == st.table && WellFormed(r.store) && KeepsValid(st, r.store)
    ensures Coherent(st) ==> Coherent(r.store)
  {
    if st.table.None? then Step(st, Failure(NoSuchTable))
    else
      var t := st.table.value;
      match FirstNamed(t, scan, name)
      case None =>
        assert forall k | k in t :: t[k].name != name by {
          forall k | k in t ensures t[k].name != name {
            var i :| 0 <= i < |scan| && scan[i] == k;
          }
        }
        Step(st, Success(None))
      case Some(i) =>
        var got := InstanceFromDb(st, scan[i], t[scan[i]]);
        InstanceFromDbFrame(st, scan[i], t[scan[i]]);
        match got.out
        case Failure(e) => Step(got.store, Failure(e))
        case Success(h) => Step(got.store, Success(Some(h)))
  }

  /** A non-empty sequence is its head followed by its tail. */
  lemma HeadTail(ks: seq<int>)
    requires |ks| > 0
    ensures [ks[0]] + ks[1..] == ks
  {
  }

  /** If `m` sends `k` to `h` and each of `tail` to the matching one of `hs`, it sends `[k] + tail` to `[h] + hs`. */
  lemma LookupCons(m: map<int, Handle>, k: int, h: Handle, tail: seq<int>, hs: seq<Handle>)
    requires k in m && m[k] == h && |hs| == |tail|
    requires forall i | 0 <= i < |tail| :: tail[i] in m && m[tail[i]] == hs[i]
    ensures forall i | 0 <= i < |tail| + 1 :: ([k] + tail)[i] in m && m[([k] + tail)[i]] == ([h] + hs)[i]
  {
    forall i | 0 <= i < |tail| + 1
      ensures ([k] + tail)[i] in m && m[([k] + tail)[i]] == ([h] + hs)[i]
    {
      if i > 0 {
        assert ([k] + tail)[i] == tail[i - 1] && ([h] + hs)[i] == hs[i - 1];
      }
    }
  }

  /** The error a refused row raises: its `name` is checked before its `location`. */
  function RowError(row: Row): Error
  {
    if HasText(row.name) then EmptyValue(LocationField) else EmptyValue(NameField)
  }

  /** The error of the first row of `ks` that a setter refuses, if any. */
  function FirstRefusal(t: Table, ks: seq<int>): Option<Error>
    requires forall i | 0 <= i < |ks| :: ks[i] in t
    decreases |ks|
  {
    if |ks| == 0 then None
    else if !RowValid(t[ks[0]]) then Some(RowError(t[ks[0]]))
    else FirstRefusal(t, ks[1..])
  }

  /**
   `FirstRefusal` is none exactly when every row is accepted, and otherwise
   it is the error of a refused row that all earlier rows precede accepted.
   */
  lemma {:induction false} FirstRefusalIsFirstRefusedRow(t: Table, ks: seq<int>)
    requires forall i | 0 <= i < |ks| :: ks[i] in t
    ensures FirstRefusal(t, ks).None? <==> forall i | 0 <= i < |ks| :: RowValid(t[ks[i]])
    ensures FirstRefusal(t, ks).Some? ==>
      exists i | 0 <= i < |ks| ::
        && !RowValid(t[ks[i]])
        && (forall j | 0 <= j < i :: RowValid(t[ks[j]]))
        && FirstRefusal(t, ks).value == RowError(t[ks[i]])
    decreases |ks|
  {
    if |ks| > 0 && RowValid(t[ks[0]]) {
      var tail := ks[1..];
      FirstRefusalIsFirstRefusedRow(t, tail);
      assert forall i | 0 < i < |ks| :: ks[i] == tail[i - 1];
      if FirstRefusal(t, tail).Some? {
        var i :| 0 <= i < |tail| && !RowValid(t[tail[i]])
          && (forall j | 0 <= j < i :: RowValid(t[tail[j]]))
          && FirstRefusal(t, tail).value == RowError(t[tail[i]]);
        assert ks[i + 1] == tail[i];
      }
    }
  }

  /** `instance_from_db` applied to the rows keyed by `ks`, in order, stopping at the first failure. */
  function FromRows(st: Store, t: Table, ks: seq<int>): (r: Step<seq<Handle>>)
    requires WellFormed(st)
    requires forall i | 0 <= i < |ks| :: ks[i] in t
    ensures r.store.table == st.table
    ensures WellFormed(r.store) && KeepsValid(st, r.store)
    ensures forall j | j in st.all :: j in r.store.all && r.store.all[j] == st.all[j]
    ensures st.heap.Keys <= r.store.heap.Keys
    ensures Coherent(st) ==> Coherent(r.store)
    ensures Valid(st) && TableValid(t) ==> r.out.Success?
    ensures Coherent(st) ==>
      forall j | j in st.all && j !in ks :: r.store.heap[st.all[j]] == st.heap[st.all[j]]
    ensures r.out.Success? ==>
      && |r.out.value| == |ks|
      && forall i | 0 <= i < |ks| :: ks[i] in r.store.all && r.store.all[ks[i]] == r.out.value[i]
    decreases |ks|
  {
    if |ks| == 0 then Step(st, Success([]))
    else
      var first := InstanceFromDb(st, ks[0], t[ks[0]]);
      match first.out
      case Failure(e) => Step(first.store, Failure(e))
      case Success(h) =>
        var rest := FromRows(first.store, t, ks[1..]);
        match rest.out
        case Failure(e) => Step(rest.store, Failure(e))
        case Success(hs) =>
          LookupCons(rest.store.all, ks[0], h, ks[1..], hs);
          HeadTail(ks);
          Step(rest.store, Success([h] + hs))
  }

  /**
   Reconstructing the rows `ks` in order fails exactly when some row is
   refused, with the error of the first refused row.
   */
  lemma {:induction false} FromRowsStopsAtFirstRefusal(st: Store, t: Table, ks: seq<int>)
    requires WellFormed(st)
    requires forall i | 0 <= i < |ks| :: ks[i] in t
    ensures FromRows(st, t, ks).out.Success? <==> FirstRefusal(t, ks).None?
    ensures FromRows(st, t, ks).out.Failure? ==> FirstRefusal(t, ks) == Some(FromRows(st, t, ks).out.error)
    decreases |ks|
  {
    if |ks| > 0 {
      var r := FromRows(st, t, ks);
      var first := InstanceFromDb(st, ks[0], t[ks[0]]);
      if first.out.Failure? {
        assert first.out.error == RowError(t[ks[0]]);
        assert r.out == Failure(first.out.error);
      } else {
        var tail := ks[1..];
        FromRowsStopsAtFirstRefusal(first.store, t, tail);
        var rest := FromRows(first.store, t, tail);
        assert FirstRefusal(t, ks) == FirstRefusal(t, tail);
        assert r.out.Success? <==> rest.out.Success?;
        assert r.out.Failure? ==> r.out.error == rest.out.error;
      }
    }
  }

  /**
   `get_all()`: every row of the table reconstructed by the row-to-object
   rule, in scan order; each result is the object the identity map holds for
   its row.
   */
  function GetAll(st: Store, scan: seq<int>): (r: Step<seq<Handle>>)
    requires WellFormed(st)
    requires st.table.Some? ==> ScanOrder(st.table.value, scan)
    ensures st.table.None? ==> r == Step(st, Failure(NoSuchTable))
    ensures st.table.Some? && Valid(st) ==> r.out.Success?
    ensures r.out.Success? ==>
      && |r.out.value| == |scan|
      && forall i | 0 <= i < |scan| ::
           && scan[i] in r.store.all && r.store.all[scan[i]] == r.out.value[i]
           && r.out.value[i] in r.store.heap
    ensures forall j | j in st.all :: j in r.store.all && r.store.all[j] == st.all[j]
    ensures r.store.table == st.table && WellFormed(r.store) && KeepsValid(st, r.store)
    ensures Coherent(st) && st.table.Some? ==>
      forall j | j in st.all && j !in st.table.value :: r.store.heap[st.all[j]] == st.heap[st.all[j]]
    ensures Coherent(st) ==> Coherent(r.store)
  {
    if st.table.None? then Step(st, Failure(NoSuchTable))
    else
      var r := FromRows(st, st.table.value, scan);
      if r.out.Success? then HandlesInHeap(r.store, scan, r.out.value); r else r
  }

  /** The handles the identity map gives for `ks` are live objects. */
  lemma HandlesInHeap(st: Store, ks: seq<int>, hs: seq<Handle>)
    requires WellFormed(st) && |hs| == |ks|
    requires forall i | 0 <= i < |ks| :: ks[i] in st.all && st.all[ks[i]] == hs[i]
    ensures forall i | 0 <= i < |hs| :: hs[i] in st.heap
  {
    forall i | 0 <= i < |hs| ensures hs[i] in st.heap {
      var k := ks[i];
      assert k in st.all;
      assert st.all[k] in st.heap;
    }
  }
}

=== FILE: wrappers.dfy ===
/** Option and Result: absence and failure as values rather than exceptions. */
module Wrappers {

  /** `None` stands for Python's `None`; `Some(v)` for a present value. */
  datatype Option<+T> = None | Some(value: T)

  /** The outcome of an operation that may raise: `Failure` carries the raised error. */
  datatype Result<+T, +E> = Success(value: T) | Failure(error: E)
}
